=== FILE: README.md ===
# Fraud-detection service core, modelled in Dafny

This project models the two halves of a small fraud-detection system. The
halves meet through three persisted artifacts: the feature-name list, the
label encoders and the scaler.

- **Offline preprocessing** (`preprocess_data`):
  - picks the feature columns of a transaction table, dropping `is_fraud` and `transaction_id`;
  - label-encodes the object-typed feature columns, one `LabelEncoder` per column;
  - builds the feature matrix `X` in feature-column order and the target `y`;
  - persists the feature-column list as `feature_names`.
- **Online serving** (the API):
  - rebuilds a pre-scaling feature vector for one request from the persisted `feature_names` (`preprocess_transaction`);
  - turns the classifier's fraud probability into a decision (`> 0.5`) and a confidence bucket (`predict`);
  - folds single predictions into a batch summary (`batch_predict`);
  - reports the loaded artifacts (`model_info`);
  - answers `/predict`, `/batch-predict`, `/model-info` and `/health` with 503 while no model is loaded (`/` answers regardless).

Modules, one per concern:

| module | file | models |
|---|---|---|
| `Outcomes` | outcomes.dfy | `Option` and `Result` |
| `Strings` | strings.dfy | prefix test (`str.startswith`), distinctness, subsequences, code-point order of strings |
| `Reconstruction` | reconstruction.dfy | `preprocess_transaction`: the name-prefix attribution of each persisted feature name and the vector it yields |
| `Scoring` | scoring.dfy | the fraud decision and the confidence buckets of `predict` |
| `LabelEncoding` | label_encoding.dfy | `LabelEncoder.fit_transform`: classes sorted by code point, code = rank |
| `Preprocessing` | preprocessing.dfy | `preprocess_data` up to the train/test split: column selection, encoders, `X`, `y`, persisted names |
| `Serving` | serving.dfy | `predict`, `batch_predict`, `model_info` and the not-loaded gate |
| `Consistency` | consistency.dfy | what the two halves do together on the generated data set, and on a one-hot schema |

The scaler and the classifier are opaque. Each is a value carrying the
feature width it was fitted on and a function: the scaler's `transform`, and
the classifier's fraud-class probability. `scaler.transform` fails when the
row's width differs from the fitted width, or when the row has no features
at all. The model treats that failure as an exception, which `predict` turns
into a 500.

The two halves do not agree, and the serving side has no safeguard:

- The offline side label-encodes categorical columns into ordinal codes. It
  persists the raw column names, not one-hot names. The serving side
  nevertheless expects one-hot names of the form `<field>_<value>`.
  `Consistency.OfflineNamesReconstruction` and
  `Consistency.GeneratedDataCannotBeServed` state what follows from this on
  the generated data: the 7 persisted names rebuild to 3 entries, so every
  prediction fails with a 500.
- Attribution of a persisted name to a request field uses the `startswith`
  heuristic, tried in the order merchant_category, time_of_day, location,
  transaction_type. It does not use an explicit name-to-field map. A name
  that no field prefixes, and that is not `amount`, is silently skipped.
- No schema check happens at load time. A width mismatch shows up per
  request, as a 500 from `predict`.

## Model

| member | source | states |
|---|---|---|
| Reconstruction.Attribute | src/api/app.py:160-166 | the `for`/`startswith`/`break` loop: the field it returns is one whose name prefixes the column name; AttributeFirstMatch states that it is the first such field in the loop's order, and that there is none exactly when no field name is a prefix |
| Reconstruction.AttributeFirstMatch | src/api/app.py:160-166 | a persisted name is attributed to the first of the four request fields, in the source's fixed order, whose name is a prefix of it; it is attributed to none exactly when no field name is a prefix |
| Reconstruction.Entry | src/api/app.py:154-166 | `amount` yields the request amount; another name yields an entry iff some field prefixes it; that entry is 1.0 exactly when the name equals `<field>_<request value>` and 0.0 otherwise |
| Reconstruction.RecognisedNames | src/api/app.py:154-166 | the names that contribute an entry are exactly those that are `amount` or prefixed by a field name |
| Reconstruction.Reconstruct | src/api/app.py:153-166 | the rebuilt vector has one entry per recognised name, in persisted-name order, and entry i is the entry of the i-th recognised name |
| Reconstruction.RecognisedNamesKeepOrder | src/api/app.py:154-166 | the contributing names are a subsequence of the persisted names, and their number is the list length minus the number of skipped entries, each repeat counted; so the vector has exactly one entry per recognised occurrence |
| Reconstruction.NoneSkippedIffAllRecognised | src/api/app.py:154-166 | the loop skips no entry iff every persisted name is recognised (both directions) |
| Reconstruction.FullLengthIffAllRecognised | src/api/app.py:154-166 | the vector is as long as the name list iff every persisted name is recognised (both directions) |
| Reconstruction.OneHotSchemaFullLength | src/api/app.py:154-166 | a list made of `amount` and `<field>_<value>` names rebuilds to a vector of full length |
| Reconstruction.OneHotNameAttribution | src/api/app.py:160-161 | a one-hot name `<field>_<value>` is attributed to its own field, even when an earlier field's name could be confused with it |
| Reconstruction.OneHotEntry | src/api/app.py:162-165 | a one-hot name's entry is 1.0 iff its value is the request's value for that field |
| Reconstruction.AllRecognisedKept | src/api/app.py:154-166 | when every persisted name is recognised, none is skipped: the contributing names are the whole list |
| Reconstruction.OneHotColumnsReconstruction | src/api/app.py:154-166 | for a one-hot column layout, slot i is 1.0 exactly when its value is the request's value for slot i's field |
| Reconstruction.AmountEntries | src/api/app.py:155-156 | every `amount` name contributes the request amount unchanged |
| Reconstruction.UnseenCategoryAllZero | src/api/app.py:162-165 | a request value never seen at fit time makes every slot of its field 0.0, and no error is raised |
| Reconstruction.AtMostOneHotPerField | src/api/app.py:162-165 | with distinct persisted names, at most one slot per field is 1.0 |
| Scoring.Bucket | src/api/app.py:192-197 | confidence is high iff the probability is more than 0.2 away from 0.5, medium iff it is more than 0.1 and at most 0.2 away, low otherwise |
| Scoring.BucketSymmetric | src/api/app.py:192-197 | p and 1 - p get the same confidence |
| Scoring.BucketMonotoneInDistance | src/api/app.py:192-197 | moving further from 0.5 never lowers the confidence |
| Scoring.DecisionBoundary | src/api/app.py:189-197 | exactly 0.5 is not fraud; for any other p, p and 1 - p get opposite decisions; low confidence only occurs between 0.4 and 0.6 |
| Scoring.ReferenceBuckets | src/api/app.py:192-197 | 0.1 and 0.9 are high, 0.35 and 0.65 are medium, 0.5 is low |
| LabelEncoding.Fit | src/data/preprocessing.py:44-45 | the fitted classes are exactly the distinct labels of the column |
| LabelEncoding.FitTransform | src/data/preprocessing.py:44-45 | one code per label, each below the number of classes, and two labels share a code iff they are equal, and codes follow the code-point order of the labels (a label that sorts before another gets the smaller code) |
| LabelEncoding.Code | src/data/preprocessing.py:45 | the `transform` half of `fit_transform`: a label's code never exceeds the number of classes, and a fitted label's code is below it; CodeMonotone and CodeInjective state that it is the label's rank in code-point order |
| LabelEncoding.CodeMonotone | src/data/preprocessing.py:44-45 | codes follow the code-point order of the labels |
| LabelEncoding.CodeInjective | src/data/preprocessing.py:44-45 | distinct fitted labels get distinct codes |
| Preprocessing.ColumnOf | src/data/preprocessing.py:50 | lookup by label succeeds iff the frame has a column with that label |
| Preprocessing.ColumnOfUnique | src/data/preprocessing.py:50 | with distinct labels, lookup returns the one column carrying the label |
| Preprocessing.FeatureColumns | src/data/preprocessing.py:36 | the list comprehension: never longer than the column list; FeatureColumnsDropOnlyExcluded states that it keeps exactly the labels other than `is_fraud` and `transaction_id`, in column order |
| Preprocessing.FeatureColumnsDropOnlyExcluded | src/data/preprocessing.py:36 | a label is a feature iff it is a column label other than `is_fraud` and `transaction_id`; features keep column order, and only those two labels are dropped |
| Preprocessing.TargetNeverAFeature | src/data/preprocessing.py:36 | neither `is_fraud` nor `transaction_id` is ever a feature column |
| Preprocessing.CategoricalColumns | src/data/preprocessing.py:42 | the encoded columns are exactly the feature columns holding strings, in feature-column order |
| Preprocessing.FitEncoders | src/data/preprocessing.py:39-46 | one encoder per categorical column, keyed by its label and fitted on that column's labels |
| Preprocessing.EncodeColumn | src/data/preprocessing.py:43-45 | one pass of the encoding loop: a categorical object column becomes the codes of its labels under an encoder fitted on that column, label by label; any other column is left as it was; label and height never change |
| Preprocessing.EncodeFrame | src/data/preprocessing.py:40-45 | the working copy `df_processed`: the same columns in the same order, each passed through one encoding step |
| Preprocessing.EncodeFrameTouchesOnlyCategorical | src/data/preprocessing.py:40-45 | encoding keeps the column labels, the row count and well-formedness, and leaves every column not selected for encoding exactly as it was |
| Preprocessing.WorkingCopyIsNumeric | src/data/preprocessing.py:42-49 | after encoding, every feature column of the working copy is numeric |
| Preprocessing.FeatureMatrix | src/data/preprocessing.py:49 | X has one row per record and one entry per feature in every row |
| Preprocessing.PreprocessData | src/data/preprocessing.py:36-50 | lines 36-50 complete iff the frame has an `is_fraud` column; the feature list (the one line 88 persists) is the feature columns in frame order and never includes the target; y is the original target column; the encoder keys are exactly the string-valued features, each once, in feature order, and each encoder is fitted on its column; X[row][i] is the raw value, or the label code, of feature i |
| Serving.ScaledInput | src/api/app.py:169-188 | scaling succeeds iff the rebuilt vector is non-empty and as wide as the scaler was fitted for, and the model accepts that width |
| Serving.Predict | src/api/app.py:177-206 | an error maps to status 503 exactly when no model is loaded and to 500 otherwise; with a model, succeeds iff scaling succeeds; on success is_fraud iff probability > 0.5, and confidence is the bucket of the probability |
| Serving.FraudCount | src/api/app.py:229-236 | the fraud count never exceeds the number of predictions |
| Serving.FraudCountCountsFlagged | src/api/app.py:229-236 | the fraud count is the number of predictions flagged as fraud |
| Serving.FraudPercentage | src/api/app.py:238-239 | the percentage lies in [0, 100]; it is fraud_count / total * 100 for a non-empty batch and 0 for an empty one |
| Serving.BatchPredict | src/api/app.py:222-249 | an error maps to status 503 exactly when no model is loaded and to 500 otherwise; with a model, succeeds iff every single prediction succeeds; on success, predictions are the single predictions in request order, and the total, fraud count and percentage agree with them |
| Serving.GetModelInfo | src/api/app.py:252-263 | fails, with status 503, exactly when no model is loaded; otherwise the feature count is the persisted-name count, and the categorical features are the encoder keys in order |
| Consistency.OfflineFeatureNamesPersisted | src/data/data_loader.py:33-65 | on the generated table's columns, the persisted names are the 7 columns between `transaction_id` and `is_fraud` |
| Consistency.OfflineNamesReconstruction | src/api/app.py:154-166 | those 7 names rebuild to [amount, 0.0, 0.0], which is shorter than the name list |
| Consistency.UnrecognisedNameFailsPrediction | src/api/app.py:169-206 | when artifacts come from preprocessing and some persisted name is unrecognised, every prediction fails with a 500 |
| Consistency.GeneratedDataPreprocesses | src/data/preprocessing.py:36-50 | on the generated table, lines 36-50 complete and yield the 7 names that line 88 persists |
| Consistency.ModelInfoReportsPreprocessing | src/api/app.py:258-263 | for a bundle fitted offline, model info reports as many features as there are feature columns, and as categorical features exactly the object-typed feature columns, each once, in feature order |
| Consistency.GeneratedDataCannotBeServed | src/api/app.py:183-206 | with artifacts from the generated table, every prediction fails with a 500 |
| Consistency.OneHotSchemaIsServed | src/api/app.py:154-189 | with a name list of `amount` and one-hot names, and a width-preserving scaler and model fitted for its width, a prediction succeeds iff the name list is non-empty |
| Consistency.ManualTestScenarios | test_api.py:42-48 | for the manual-test record against a one-hot layout that saw its categories, each field has exactly one 1.0 slot; with an unseen merchant category, both merchant slots are 0.0 and the rest are unchanged |

## Left out

- Loading of the pickled artifacts (src/api/app.py:52-103): file I/O. The loaded state is an `Option` of the artifacts.
- FastAPI routing, pydantic request validation, `/` and `/health`: framework code. A request missing a field is rejected by pydantic before `predict` runs, so a `Transaction` always has all five fields.
- The numerics of `StandardScaler` and of the classifier: the scaler and the classifier are opaque functions, and only the width check is modelled.
- The train/test split, scaler fitting, `train.py`, the pipelines and `config.py`: the model stops at line 50 of src/data/preprocessing.py. What the split and the scaler compute is not modelled. Whether anything is persisted depends on them and on `save_path` (see the Preprocessing.PreprocessData line).
- The random sampling in `generate_fraud_data`: only the column list it produces (src/data/data_loader.py:33-42, 65) is used.
- Serving.BatchPredict: the percentage is the exact quotient, without `round(fraud_pct, 2)`, because rounding to two decimals is a floating-point detail.
- Scoring.Bucket: probabilities and thresholds are exact reals; binary floating-point rounding near the 0.3/0.4/0.6/0.7 thresholds is not modelled.
- Preprocessing.PreprocessData: requires distinct column labels and equal-height columns. The model does not cover duplicate labels in a DataFrame, or object columns with missing values (which `LabelEncoder` encodes as one extra, last class) or with mixed strings and numbers (on which it raises a `TypeError`).
- Preprocessing.PreprocessData: models lines 36-50 only. Its feature list reaches `feature_names.pkl` (lines 70-88) only when a `save_path` is given (run_simple_fraud_detection.py:51 passes none), and only after `train_test_split` (lines 56-58) and `StandardScaler.fit_transform` (lines 65-67) return. Those raise, and nothing is persisted, on a frame with too few rows, a class with a single member under `stratify=y`, or no feature column. These outcomes are not modelled.
- Serving.Predict: pydantic's `float` accepts `inf` and `nan`. An infinite amount gives a 500, because `StandardScaler.transform` rejects it. A NaN amount passes the scaler, and its outcome depends on the classifier. Neither case is modelled, because `amount` is an exact real.
- Serving.Predict: a classifier fitted on a single class (where `predict_proba(X)[0][1]` raises an IndexError) is not modelled; the classifier always yields a fraud probability.
- Serving.GetModelInfo: `type(model).__name__` is carried as the classifier's stored kind string.
- Logging: it has no effect on results.

=== FILE: consistency.dfy ===
/**
 * Facts that join the offline side (src/data/preprocessing.py) and the
 * serving side (src/api/app.py). The offline side persists raw column
 * names and ordinal label codes; the serving side expects `amount` plus
 * one-hot names `<field>_<value>`. Neither side checks the other.
 */
module Consistency {
  import opened Outcomes
  import opened Strings
  import opened Reconstruction
  import opened Preprocessing
  import opened Serving

  /**
   * The columns of the frame `generate_fraud_data` builds, in order:
   * `transaction_id` inserted first, then the generated fields.
   */
  const GeneratedColumns: seq<string> := [
    "transaction_id", "amount", "time_of_day", "transaction_frequency", "account_age_days",
    "merchant_category", "distance_from_home", "previous_fraud_rate", "is_fraud"]

  /** The feature list the offline side persists for that frame. */
  const OfflineFeatureNames: seq<string> := [
    "amount", "time_of_day", "transaction_frequency", "account_age_days",
    "merchant_category", "distance_from_home", "previous_fraud_rate"]

  /** Column selection distributes over concatenation. */
  lemma {:induction false} FeatureColumnsAppend(a: seq<string>, b: seq<string>)
    ensures FeatureColumns(a + b) == FeatureColumns(a) + FeatureColumns(b)
  {
    if |a| > 0 {
      FeatureColumnsAppend(a[1..], b);
      assert (a + b)[1..] == a[1..] + b;
    } else {
      assert a + b == b;
    }
  }

  /** With no excluded name among them, every column is a feature column. */
  lemma {:induction false} FeatureColumnsKeepsClean(cols: seq<string>)
    requires forall k :: 0 <= k < |cols| ==> !Excluded(cols[k])
    ensures FeatureColumns(cols) == cols
  {
    if |cols| > 0 {
      FeatureColumnsKeepsClean(cols[1..]);
    }
  }

  /** The facts about the generated columns that selection depends on. */
  lemma GeneratedColumnsShape(cols: seq<string>)
    requires cols == GeneratedColumns
    ensures |cols| == 9 && Excluded(cols[0]) && Excluded(cols[8])
    ensures forall k :: 1 <= k < 8 ==> !Excluded(cols[k])
    ensures cols[1..8] == OfflineFeatureNames
  {
  }

  /** Selection from a list whose first and last names are excluded keeps exactly the names between. */
  lemma SelectionBetweenExcluded(first: string, mid: seq<string>, last: string)
    requires Excluded(first) && Excluded(last)
    requires forall k :: 0 <= k < |mid| ==> !Excluded(mid[k])
    ensures FeatureColumns([first] + mid + [last]) == mid
  {
    FeatureColumnsAppend([first] + mid, [last]);
    FeatureColumnsAppend([first], mid);
    FeatureColumnsKeepsClean(mid);
    assert FeatureColumns([first]) == [] by {
      assert [first][1..] == [];
    }
    assert FeatureColumns([last]) == [] by {
      assert [last][1..] == [];
    }
  }

  /** Preprocessing the generated frame persists exactly these seven names. */
  lemma OfflineFeatureNamesPersisted(cols: seq<string>)
    requires cols == GeneratedColumns
    ensures FeatureColumns(cols) == OfflineFeatureNames
  {
    GeneratedColumnsShape(cols);
    var mid := cols[1..8];
    forall k | 0 <= k < |mid|
      ensures !Excluded(mid[k])
    {
      assert mid[k] == cols[k + 1];
    }
    assert cols == [cols[0]] + mid + [cols[8]];
    SelectionBetweenExcluded(cols[0], mid, cols[8]);
  }

  lemma NotPrefixAt(s: string, p: string, k: nat)
    requires k < |s| && k < |p| && s[k] != p[k]
    ensures !StartsWith(s, p)
  {
    if |p| <= |s| {
      assert s[..|p|][k] == s[k];
    }
  }

  /** A name whose first character differs from every field name's is never attributed. */
  lemma UnattributedByFirstChar(name: string)
    requires |name| > 0 && name[0] != 'm' && name[0] != 't' && name[0] != 'l'
    ensures Attribute(name) == None
  {
    NotPrefixAt(name, FieldName(MerchantCategory), 0);
    NotPrefixAt(name, FieldName(TimeOfDay), 0);
    NotPrefixAt(name, FieldName(Location), 0);
    NotPrefixAt(name, FieldName(TransactionType), 0);
  }

  /** A name that is exactly a field's name is attributed to it but never matches a value. */
  lemma BareFieldNameIsZero(t: Transaction, f: Field)
    requires Attribute(FieldName(f)) == Some(f)
    ensures Entry(t, FieldName(f)) == Some(0.0)
  {
    assert |OneHotName(f, ValueOf(t, f))| > |FieldName(f)|;
    assert FieldName(f) != AmountName;
  }

  /** What each offline name produces on the serving side. */
  lemma OfflineNameEntries(t: Transaction, names: seq<string>)
    requires names == OfflineFeatureNames
    ensures |names| == 7 && names[0] == AmountName
    ensures Entry(t, names[1]) == Some(0.0) && Entry(t, names[4]) == Some(0.0)
    ensures !Recognised(names[2]) && !Recognised(names[3])
    ensures !Recognised(names[5]) && !Recognised(names[6])
  {
    assert Attribute(names[1]) == Some(TimeOfDay) by {
      assert names[1] == FieldName(TimeOfDay);
      assert names[1][..11] == names[1];
    }
    BareFieldNameIsZero(t, TimeOfDay);
    assert Attribute(names[4]) == Some(MerchantCategory) by {
      assert names[4] == FieldName(MerchantCategory);
      assert names[4][..17] == names[4];
    }
    BareFieldNameIsZero(t, MerchantCategory);
    assert Attribute(names[2]) == None by {
      NotPrefixAt(names[2], FieldName(MerchantCategory), 0);
      NotPrefixAt(names[2], FieldName(TimeOfDay), 1);
      NotPrefixAt(names[2], FieldName(Location), 0);
      NotPrefixAt(names[2], FieldName(TransactionType), 12);
    }
    UnattributedByFirstChar(names[3]);
    UnattributedByFirstChar(names[5]);
    UnattributedByFirstChar(names[6]);
  }

  /** A kept name at position i contributes its entry in front of what follows it. */
  lemma KeepAt(t: Transaction, names: seq<string>, i: nat, x: real)
    requires i < |names| && Entry(t, names[i]) == Some(x)
    ensures Reconstruct(t, names[i..]) == [x] + Reconstruct(t, names[i + 1..])
  {
    assert names[i..][1..] == names[i + 1..];
  }

  /** A dropped name at position i contributes nothing. */
  lemma DropAt(t: Transaction, names: seq<string>, i: nat)
    requires i < |names| && !Recognised(names[i])
    ensures Reconstruct(t, names[i..]) == Reconstruct(t, names[i + 1..])
  {
    assert names[i..][1..] == names[i + 1..];
  }

  /** The last four names of the offline pattern: dropped, kept as 0.0, dropped, dropped. */
  lemma LastFourReconstruction(t: Transaction, names: seq<string>)
    requires |names| == 7
    requires Entry(t, names[4]) == Some(0.0)
    requires !Recognised(names[3]) && !Recognised(names[5]) && !Recognised(names[6])
    ensures Reconstruct(t, names[3..]) == [0.0]
  {
    DropAt(t, names, 6);
    DropAt(t, names, 5);
    KeepAt(t, names, 4, 0.0);
    DropAt(t, names, 3);
  }

  /** Reconstruction of a seven-name list with the offline pattern of kept and dropped names. */
  lemma SevenNamesReconstruction(t: Transaction, names: seq<string>)
    requires |names| == 7 && names[0] == AmountName
    requires Entry(t, names[1]) == Some(0.0) && Entry(t, names[4]) == Some(0.0)
    requires !Recognised(names[2]) && !Recognised(names[3])
    requires !Recognised(names[5]) && !Recognised(names[6])
    ensures Reconstruct(t, names) == [t.amount, 0.0, 0.0]
  {
    LastFourReconstruction(t, names);
    DropAt(t, names, 2);
    KeepAt(t, names, 1, 0.0);
    KeepAt(t, names, 0, t.amount);
    assert names[0..] == names;
  }

  /**
   * Against the offline names, serving emits only three entries for seven
   * names: the amount, and 0.0 for the raw `time_of_day` and
   * `merchant_category` columns, whatever the transaction's labels; the
   * four other names match no field prefix and are dropped.
   */
  lemma OfflineNamesReconstruction(t: Transaction, names: seq<string>)
    requires names == OfflineFeatureNames
    ensures Reconstruct(t, names) == [t.amount, 0.0, 0.0]
    ensures |Reconstruct(t, names)| < |names|
  {
    OfflineNameEntries(t, names);
    SevenNamesReconstruction(t, names);
  }

  /**
   * An artifact bundle produced by one preprocessing run: the persisted
   * names and encoders, and a scaler and classifier fitted on X, whose
   * width is the number of persisted names.
   */
  predicate FromPreprocessing(a: Artifacts, p: Preprocessed)
  {
    && a.featureNames == p.featureNames
    && a.encoders == p.encoders
    && a.scaler.nFeaturesIn == |p.featureNames|
    && a.model.nFeaturesIn == |p.featureNames|
  }

  /**
   * For a bundle fitted offline, a prediction can succeed only if every
   * persisted name is `amount` or starts with a field name; one name that
   * is neither makes every prediction fail.
   */
  lemma UnrecognisedNameFailsPrediction(a: Artifacts, p: Preprocessed, t: Transaction)
    requires FromPreprocessing(a, p)
    requires exists n :: n in a.featureNames && !Recognised(n)
    ensures Predict(Some(a), t) == Err(PredictionFailed)
  {
    FullLengthIffAllRecognised(t, a.featureNames);
  }

  /** The generated frame always has a target column, so preprocessing it never fails. */
  lemma GeneratedDataPreprocesses(df: Frame)
    requires WellFormed(df)
    requires Names(df) == GeneratedColumns
    ensures PreprocessData(df).Ok?
    ensures PreprocessData(df).value.featureNames == OfflineFeatureNames
  {
    assert Names(df)[8] == Target;
    OfflineFeatureNamesPersisted(Names(df));
  }

  /**
   * The end-to-end mismatch: serving with the bundle that preprocessing the
   * generated frame yields fails for every transaction.
   */
  lemma GeneratedDataCannotBeServed(df: Frame, a: Artifacts, t: Transaction)
    requires WellFormed(df)
    requires Names(df) == GeneratedColumns
    requires PreprocessData(df).Ok? && FromPreprocessing(a, PreprocessData(df).value)
    ensures Predict(Some(a), t) == Err(PredictionFailed)
  {
    GeneratedDataPreprocesses(df);
    OfflineNamesReconstruction(t, a.featureNames);
  }

  /**
   * `model_info` for a bundle fitted offline: the feature count is the
   * number of feature columns, and the categorical features are exactly the
   * object-typed feature columns, each listed once, in feature order.
   */
  lemma ModelInfoReportsPreprocessing(df: Frame, a: Artifacts)
    requires WellFormed(df)
    requires PreprocessData(df).Ok? && FromPreprocessing(a, PreprocessData(df).value)
    ensures GetModelInfo(Some(a)).Ok?
    ensures var info := GetModelInfo(Some(a)).value;
      && info.nFeatures == |FeatureColumns(Names(df))|
      && (forall c :: c in info.categoricalFeatures <==> c in info.featureNames && IsObject(df, c))
      && Distinct(info.categoricalFeatures)
      && IsSubsequence(info.categoricalFeatures, info.featureNames)
  {
    var info := GetModelInfo(Some(a)).value;
    assert info.categoricalFeatures == Keys(a.encoders);
  }

  ghost predicate LengthPreserving(s: Scaler)
  {
    forall v :: |s.transform(v)| == |v|
  }

  /**
   * The converse: when the persisted names follow the serving side's
   * scheme and the scaler keeps widths, every transaction is scored,
   * unless the name list is empty (the scaler refuses a row of width 0).
   */
  lemma OneHotSchemaIsServed(a: Artifacts, t: Transaction)
    requires forall n :: n in a.featureNames ==> n == AmountName || exists f: Field, v: string :: n == OneHotName(f, v)
    requires a.scaler.nFeaturesIn == |a.featureNames| == a.model.nFeaturesIn
    requires LengthPreserving(a.scaler)
    ensures Predict(Some(a), t).Ok? <==> |a.featureNames| > 0
  {
    OneHotSchemaFullLength(t, a.featureNames);
  }

  /** A one-hot layout of the kind the serving side expects. */
  const SchemaFields: seq<Field> := [
    MerchantCategory, MerchantCategory, TimeOfDay, TimeOfDay, Location, Location, TransactionType]
  const SchemaValues: seq<string> := ["grocery", "online", "morning", "night", "physical", "online", "purchase"]

  /** The slot values of the one-hot layout for the manual test's labels, `merchant_category` aside. */
  lemma GrocerySlots(t: Transaction, fields: seq<Field>, values: seq<string>, v: seq<real>)
    requires t.timeOfDay == "morning" && t.location == "physical" && t.transactionType == "purchase"
    requires fields == SchemaFields && values == SchemaValues
    requires |v| == |fields|
    requires forall i :: 0 <= i < |fields| ==> v[i] == (if values[i] == ValueOf(t, fields[i]) then 1.0 else 0.0)
    ensures t.merchantCategory == "grocery" ==> v == [1.0, 0.0, 1.0, 0.0, 1.0, 0.0, 1.0]
    ensures t.merchantCategory == "space_station" ==> v == [0.0, 0.0, 1.0, 0.0, 1.0, 0.0, 1.0]
  {
  }

  /**
   * The categorical slots of the layout for the manual test's record: with
   * all of its categories seen, exactly one 1.0 in each field's slots; with
   * its merchant category replaced by an unseen one, both merchant slots are
   * 0.0 and nothing else changes.
   */
  lemma ManualTestScenarios(t: Transaction, fields: seq<Field>, values: seq<string>)
    requires t.timeOfDay == "morning" && t.location == "physical" && t.transactionType == "purchase"
    requires fields == SchemaFields && values == SchemaValues
    ensures t.merchantCategory == "grocery" ==>
      Reconstruct(t, OneHotColumns(fields, values)) == [1.0, 0.0, 1.0, 0.0, 1.0, 0.0, 1.0]
    ensures t.merchantCategory == "space_station" ==>
      Reconstruct(t, OneHotColumns(fields, values)) == [0.0, 0.0, 1.0, 0.0, 1.0, 0.0, 1.0]
  {
    OneHotColumnsReconstruction(t, fields, values);
    GrocerySlots(t, fields, values, Reconstruct(t, OneHotColumns(fields, values)));
  }
}

=== FILE: label_encoding.dfy ===
/**
 * sklearn's LabelEncoder as used by `preprocess_data`: fitting collects the
 * distinct labels of a column (its classes, kept sorted), and encoding maps
 * a label to its index among the sorted classes.
 */
module LabelEncoding {
  import opened Strings

  datatype LabelEncoder = LabelEncoder(classes: set<string>)

  /** `fit`: the classes are the distinct labels observed. */
  function Fit(labels: seq<string>): (e: LabelEncoder)
    ensures forall x :: x in e.classes <==> x in labels
  {
    LabelEncoder(set x | x in labels)
  }

  /** The classes that sort strictly before `lab`. */
  function Smaller(e: LabelEncoder, lab: string): set<string>
  {
    set u | u in e.classes && LexLess(u, lab)
  }

  /**
   * `transform` of one label: its index in the sorted class list, which
   * for a fitted label lies in [0, number of classes).
   */
  function Code(e: LabelEncoder, lab: string): (c: nat)
    ensures c <= |e.classes|
    ensures lab in e.classes ==> c < |e.classes|
  {
    LexLessIrreflexive(lab);
    SubsetCardinality(Smaller(e, lab), e.classes - {lab});
    |Smaller(e, lab)|
  }

  /** `fit_transform`: fit on a column and encode every label of it. */
  function FitTransform(labels: seq<string>): (r: (LabelEncoder, seq<nat>))
    ensures r.0 == Fit(labels)
    ensures |r.1| == |labels|
    ensures forall i :: 0 <= i < |labels| ==> r.1[i] < |r.0.classes|
    ensures forall i, j :: 0 <= i < |labels| && 0 <= j < |labels| ==> (r.1[i] == r.1[j] <==> labels[i] == labels[j])
    ensures forall i, j :: 0 <= i < |labels| && 0 <= j < |labels| && LexLess(labels[i], labels[j]) ==> r.1[i] < r.1[j]
  {
    var e := Fit(labels);
    var codes := seq(|labels|, i requires 0 <= i < |labels| => Code(e, labels[i]));
    forall i, j | 0 <= i < |labels| && 0 <= j < |labels| && labels[i] != labels[j]
      ensures codes[i] != codes[j]
    {
      CodeInjective(e, labels[i], labels[j]);
    }
    forall i, j | 0 <= i < |labels| && 0 <= j < |labels| && LexLess(labels[i], labels[j])
      ensures codes[i] < codes[j]
    {
      CodeMonotone(e, labels[i], labels[j]);
    }
    (e, codes)
  }

  lemma SubsetCardinality(a: set<string>, b: set<string>)
    requires a <= b
    ensures |a| <= |b|
    ensures a < b ==> |a| < |b|
  {
    assert b == a + (b - a);
  }

  /** Codes follow the sorted order of the classes. */
  lemma CodeMonotone(e: LabelEncoder, u: string, v: string)
    requires u in e.classes
    requires LexLess(u, v)
    ensures Code(e, u) < Code(e, v)
  {
    forall w | w in Smaller(e, u)
      ensures w in Smaller(e, v)
    {
      LexLessTransitive(w, u, v);
    }
    LexLessIrreflexive(u);
    assert u in Smaller(e, v) - Smaller(e, u);
    SubsetCardinality(Smaller(e, u), Smaller(e, v));
  }

  /** Distinct classes get distinct codes, so decoding a code is well defined. */
  lemma CodeInjective(e: LabelEncoder, u: string, v: string)
    requires u in e.classes && v in e.classes
    requires u != v
    ensures Code(e, u) != Code(e, v)
  {
    LexLessTotal(u, v);
    if LexLess(u, v) {
      CodeMonotone(e, u, v);
    } else {
      CodeMonotone(e, v, u);
    }
  }
}

=== FILE: outcomes.dfy ===
/** Failure-carrying values used in place of the source's `None` checks and exceptions. */
module Outcomes {

  /** An optional value: `None` where the source has Python's `None`. */
  datatype Option<+T> = None | Some(value: T)

  /** Either a computed value or the error that stopped the computation. */
  datatype Result<+T, +E> = Ok(value: T) | Err(error: E)
}

=== FILE: preprocessing.dfy ===
/**
 * The column bookkeeping of `preprocess_data` in src/data/preprocessing.py:
 * choose the feature columns, label-encode the object-typed ones (one
 * encoder per column, on a copy of the frame), lay out X in feature-column
 * order, take y from `is_fraud`, and keep the feature list for persisting.
 */
module Preprocessing {
  import opened Outcomes
  import opened Strings
  import opened LabelEncoding

  /** A column's cells: numbers, or category labels (pandas `object` dtype). */
  datatype Cells = Numbers(nums: seq<real>) | Labels(labels: seq<string>)

  datatype Column = Column(name: string, cells: Cells)

  /** A data frame: its columns in order. */
  type Frame = seq<Column>

  function Height(c: Cells): nat
  {
    match c
    case Numbers(xs) => |xs|
    case Labels(ls) => |ls|
  }

  function Rows(df: Frame): nat
  {
    if |df| == 0 then 0 else Height(df[0].cells)
  }

  /** `df.columns`. */
  function Names(df: Frame): (r: seq<string>)
    ensures |r| == |df|
    ensures forall i :: 0 <= i < |df| ==> r[i] == df[i].name
  {
    seq(|df|, i requires 0 <= i < |df| => df[i].name)
  }

  /** Column labels are unique and every column has the same number of rows. */
  predicate WellFormed(df: Frame)
  {
    && Distinct(Names(df))
    && forall i :: 0 <= i < |df| ==> Height(df[i].cells) == Rows(df)
  }

  /** Position of the first column with label `name`. */
  function IndexOf(df: Frame, name: string): (r: Option<nat>)
    ensures r.Some? ==> r.value < |df| && df[r.value].name == name
    ensures r.Some? ==> forall j :: 0 <= j < r.value ==> df[j].name != name
    ensures r.None? <==> forall j :: 0 <= j < |df| ==> df[j].name != name
  {
    if |df| == 0 then None
    else if df[0].name == name then Some(0)
    else match IndexOf(df[1..], name)
      case None => None
      case Some(k) => Some(k + 1)
  }

  /** `df[name]`: the cells of the column with that label, if there is one. */
  function ColumnOf(df: Frame, name: string): (r: Option<Cells>)
    ensures r.Some? <==> name in Names(df)
  {
    match IndexOf(df, name)
    case None => None
    case Some(k) => Some(df[k].cells)
  }

  lemma ColumnOfUnique(df: Frame, i: nat)
    requires Distinct(Names(df))
    requires i < |df|
    ensures IndexOf(df, df[i].name) == Some(i)
    ensures ColumnOf(df, df[i].name) == Some(df[i].cells)
  {
    var k := IndexOf(df, df[i].name).value;
    if k < i {
      assert false;
    }
  }

  const Target: string := "is_fraud"
  const Identifier: string := "transaction_id"

  predicate Excluded(name: string)
  {
    name == Target || name == Identifier
  }

  /** How many entries of `cols` are the target or the identifier. */
  function ExcludedCount(cols: seq<string>): nat
  {
    if |cols| == 0 then 0
    else (if Excluded(cols[0]) then 1 else 0) + ExcludedCount(cols[1..])
  }

  /** The feature columns: every column except `is_fraud` and `transaction_id`, in order. */
  function FeatureColumns(cols: seq<string>): (r: seq<string>)
    ensures |r| <= |cols|
  {
    if |cols| == 0 then []
    else if Excluded(cols[0]) then FeatureColumns(cols[1..])
    else [cols[0]] + FeatureColumns(cols[1..])
  }

  /**
   * Exactly the target and identifier columns are removed: the rest keep
   * their order, and only the excluded entries are missing from the count.
   */
  lemma {:induction false} FeatureColumnsDropOnlyExcluded(cols: seq<string>)
    ensures forall c :: c in FeatureColumns(cols) <==> c in cols && !Excluded(c)
    ensures IsSubsequence(FeatureColumns(cols), cols)
    ensures |FeatureColumns(cols)| + ExcludedCount(cols) == |cols|
  {
    if |cols| > 0 {
      FeatureColumnsDropOnlyExcluded(cols[1..]);
      var rest := FeatureColumns(cols[1..]);
      assert cols == [cols[0]] + cols[1..];
      if Excluded(cols[0]) {
        if |rest| > 0 {
          assert rest[0] in rest;
        }
      } else {
        assert ([cols[0]] + rest)[1..] == rest;
      }
    }
  }

  /** The label column is never a feature, whatever the input columns. */
  lemma TargetNeverAFeature(cols: seq<string>)
    ensures Target !in FeatureColumns(cols) && Identifier !in FeatureColumns(cols)
  {
    FeatureColumnsDropOnlyExcluded(cols);
  }

  predicate IsObject(df: Frame, name: string)
  {
    ColumnOf(df, name).Some? && ColumnOf(df, name).value.Labels?
  }

  /** `select_dtypes(include=['object'])` over the feature columns, in their order. */
  function CategoricalColumns(df: Frame, features: seq<string>): (r: seq<string>)
    ensures forall c :: c in r <==> c in features && IsObject(df, c)
    ensures IsSubsequence(r, features)
  {
    if |features| == 0 then []
    else
      var rest := CategoricalColumns(df, features[1..]);
      if IsObject(df, features[0]) then
        assert ([features[0]] + rest)[1..] == rest;
        [features[0]] + rest
      else
        assert |rest| > 0 ==> rest[0] in rest;
        rest
  }

  /** One fitted encoder, keyed by the column it was fitted on. */
  datatype EncoderEntry = EncoderEntry(column: string, encoder: LabelEncoder)

  /** The keys of an encoder dictionary, in insertion order. */
  function Keys(encoders: seq<EncoderEntry>): (r: seq<string>)
    ensures |r| == |encoders|
    ensures forall k :: 0 <= k < |encoders| ==> r[k] == encoders[k].column
  {
    seq(|encoders|, k requires 0 <= k < |encoders| => encoders[k].column)
  }

  /** The labels of an object column (empty for any other). */
  function LabelsOf(df: Frame, name: string): seq<string>
  {
    if IsObject(df, name) then ColumnOf(df, name).value.labels else []
  }

  /** The encoder dictionary: one entry per categorical column, fitted on that column. */
  function FitEncoders(df: Frame, cats: seq<string>): (r: seq<EncoderEntry>)
    ensures Keys(r) == cats
    ensures forall k :: 0 <= k < |r| ==> r[k].encoder == Fit(LabelsOf(df, cats[k]))
  {
    seq(|cats|, k requires 0 <= k < |cats| => EncoderEntry(cats[k], Fit(LabelsOf(df, cats[k]))))
  }

  /** One column of the working copy: label codes for a categorical column, unchanged otherwise. */
  function EncodeColumn(c: Column, cats: seq<string>): (r: Column)
    ensures r.name == c.name
    ensures Height(r.cells) == Height(c.cells)
    ensures !(c.name in cats && c.cells.Labels?) ==> r == c
    ensures c.name in cats && c.cells.Labels? ==>
      && r.cells.Numbers?
      && forall k :: 0 <= k < |c.cells.labels| ==>
           r.cells.nums[k] == Code(Fit(c.cells.labels), c.cells.labels[k]) as real
  {
    if c.name in cats && c.cells.Labels? then
      var codes := FitTransform(c.cells.labels).1;
      Column(c.name, Numbers(seq(|codes|, k requires 0 <= k < |codes| => codes[k] as real)))
    else c
  }

  /** The working copy `df_processed` after the encoding loop. */
  function EncodeFrame(df: Frame, cats: seq<string>): (r: Frame)
    ensures |r| == |df|
    ensures forall i :: 0 <= i < |df| ==> r[i] == EncodeColumn(df[i], cats)
  {
    seq(|df|, i requires 0 <= i < |df| => EncodeColumn(df[i], cats))
  }

  /**
   * Encoding works on a copy and touches nothing but the columns named in
   * `cats`: labels, order and row count are kept, and every other column
   * (the target and identifier included) is carried over unchanged.
   */
  lemma EncodeFrameTouchesOnlyCategorical(df: Frame, cats: seq<string>)
    requires WellFormed(df)
    ensures var dp := EncodeFrame(df, cats);
      && Names(dp) == Names(df)
      && WellFormed(dp)
      && Rows(dp) == Rows(df)
      && forall i :: 0 <= i < |df| && df[i].name !in cats ==> dp[i] == df[i]
  {
    var dp := EncodeFrame(df, cats);
    forall i | 0 <= i < |df|
      ensures dp[i].name == df[i].name && Height(dp[i].cells) == Height(df[i].cells)
    {
    }
    assert Names(dp) == Names(df);
  }

  /**
   * The value X holds for column `name` at row `row`, read off the ORIGINAL
   * frame: the number itself for a numeric column, the label's code under
   * an encoder fitted on that column for an object column.
   */
  function FeatureValue(df: Frame, name: string, row: nat): real
  {
    match ColumnOf(df, name)
    case None => 0.0
    case Some(Numbers(xs)) => if row < |xs| then xs[row] else 0.0
    case Some(Labels(ls)) => if row < |ls| then Code(Fit(ls), ls[row]) as real else 0.0
  }

  /** In the working copy, every feature column is numeric and full height. */
  predicate NumericFeatures(dp: Frame, features: seq<string>, rows: nat)
  {
    forall i :: 0 <= i < |features| ==>
      ColumnOf(dp, features[i]).Some? && ColumnOf(dp, features[i]).value.Numbers?
      && |ColumnOf(dp, features[i]).value.nums| == rows
  }

  /** `df_processed[feature_columns].values`: one row per record, one column per feature name. */
  function FeatureMatrix(dp: Frame, features: seq<string>, rows: nat): (x: seq<seq<real>>)
    requires NumericFeatures(dp, features, rows)
    ensures |x| == rows
    ensures forall r :: 0 <= r < rows ==> |x[r]| == |features|
  {
    seq(rows, r requires 0 <= r < rows =>
      seq(|features|, i requires 0 <= i < |features| => ColumnOf(dp, features[i]).value.nums[r]))
  }

  datatype PreprocessError = MissingTarget

  /** What `preprocess_data` produces before the split: X, y, the encoders and the names to persist. */
  datatype Preprocessed = Preprocessed(
    x: seq<seq<real>>,
    y: Cells,
    encoders: seq<EncoderEntry>,
    featureNames: seq<string>)

  function PreprocessData(df: Frame): (r: Result<Preprocessed, PreprocessError>)
    requires WellFormed(df)
    ensures r.Ok? <==> Target in Names(df)
    ensures r.Err? ==> r.error == MissingTarget
    ensures r.Ok? ==> var p := r.value;
      && p.featureNames == FeatureColumns(Names(df))
      && Target !in p.featureNames
      && ColumnOf(df, Target) == Some(p.y)
      && (forall c :: c in Keys(p.encoders) <==> c in p.featureNames && IsObject(df, c))
      && Distinct(Keys(p.encoders))
      && IsSubsequence(Keys(p.encoders), p.featureNames)
      && (forall k :: 0 <= k < |p.encoders| ==> p.encoders[k].encoder == Fit(LabelsOf(df, p.encoders[k].column)))
      && |p.x| == Rows(df)
      && (forall row :: 0 <= row < |p.x| ==> |p.x[row]| == |p.featureNames|)
      && (forall row, i :: 0 <= row < |p.x| && 0 <= i < |p.featureNames| ==>
            p.x[row][i] == FeatureValue(df, p.featureNames[i], row))
  {
    var features := FeatureColumns(Names(df));
    FeatureColumnsDropOnlyExcluded(Names(df));
    var cats := CategoricalColumns(df, features);
    var encoders := FitEncoders(df, cats);
    SubsequenceDistinct(features, Names(df));
    SubsequenceDistinct(cats, features);
    var dp := EncodeFrame(df, cats);
    EncodeFrameTouchesOnlyCategorical(df, cats);
    WorkingCopyIsNumeric(df, features, cats, dp);
    var x := FeatureMatrix(dp, features, Rows(df));
    match ColumnOf(dp, Target)
    case None => Err(MissingTarget)
    case Some(y) =>
      assert ColumnOf(df, Target) == Some(y) by {
        var i := IndexOf(dp, Target).value;
        ColumnOfUnique(df, i);
      }
      Ok(Preprocessed(x, y, encoders, features))
  }

  /**
   * After the encoding loop every feature column of the working copy is
   * numeric, full height, and holds `FeatureValue` of the original frame.
   */
  lemma WorkingCopyIsNumeric(df: Frame, features: seq<string>, cats: seq<string>, dp: Frame)
    requires WellFormed(df)
    requires features == FeatureColumns(Names(df))
    requires cats == CategoricalColumns(df, features)
    requires dp == EncodeFrame(df, cats)
    ensures NumericFeatures(dp, features, Rows(df))
    ensures forall i, row :: 0 <= i < |features| && 0 <= row < Rows(df) ==>
      ColumnOf(dp, features[i]).value.nums[row] == FeatureValue(df, features[i], row)
  {
    EncodeFrameTouchesOnlyCategorical(df, cats);
    FeatureColumnsDropOnlyExcluded(Names(df));
    forall i | 0 <= i < |features|
      ensures ColumnOf(dp, features[i]).Some? && ColumnOf(dp, features[i]).value.Numbers?
      ensures |ColumnOf(dp, features[i]).value.nums| == Rows(df)
      ensures forall row :: 0 <= row < Rows(df) ==>
        ColumnOf(dp, features[i]).value.nums[row] == FeatureValue(df, features[i], row)
    {
      var name := features[i];
      assert name in features;
      var k :| 0 <= k < |df| && df[k].name == name;
      ColumnOfUnique(df, k);
      ColumnOfUnique(dp, k);
      if df[k].cells.Labels? {
        assert name in cats;
      }
    }
  }
}

=== FILE: reconstruction.dfy ===
/**
 * Serving-time feature reconstruction: the pre-scaling vector that
 * `preprocess_transaction` in src/api/app.py builds from one transaction
 * by walking the persisted `feature_names` list.
 */
module Reconstruction {
  import opened Outcomes
  import opened Strings

  /** The categorical fields of a transaction, in the order the attribution loop tries them. */
  datatype Field = MerchantCategory | TimeOfDay | Location | TransactionType

  function FieldName(f: Field): string
  {
    match f
    case MerchantCategory => "merchant_category"
    case TimeOfDay => "time_of_day"
    case Location => "location"
    case TransactionType => "transaction_type"
  }

  /** Position of a field in the attribution order. */
  function Rank(f: Field): nat
  {
    match f
    case MerchantCategory => 0
    case TimeOfDay => 1
    case Location => 2
    case TransactionType => 3
  }

  const AmountName: string := "amount"

  /** A request body: one number and four category labels, all required. */
  datatype Transaction = Transaction(
    amount: real,
    merchantCategory: string,
    timeOfDay: string,
    location: string,
    transactionType: string)

  function ValueOf(t: Transaction, f: Field): string
  {
    match f
    case MerchantCategory => t.merchantCategory
    case TimeOfDay => t.timeOfDay
    case Location => t.location
    case TransactionType => t.transactionType
  }

  /** The one-hot column name the serving side expects: `<field>_<value>`. */
  function OneHotName(f: Field, value: string): string
  {
    FieldName(f) + "_" + value
  }

  /**
   * The field a non-`amount` column name is attributed to: the first field,
   * in attribution order, whose name is a string prefix of the column name.
   */
  function Attribute(name: string): (r: Option<Field>)
    ensures r.Some? ==> StartsWith(name, FieldName(r.value))
  {
    if StartsWith(name, FieldName(MerchantCategory)) then Some(MerchantCategory)
    else if StartsWith(name, FieldName(TimeOfDay)) then Some(TimeOfDay)
    else if StartsWith(name, FieldName(Location)) then Some(Location)
    else if StartsWith(name, FieldName(TransactionType)) then Some(TransactionType)
    else None
  }

  /**
   * The attribution is the first field in attribution order that prefixes
   * the name, and there is none exactly when no field name prefixes it.
   */
  lemma AttributeFirstMatch(name: string)
    ensures Attribute(name).Some? ==> StartsWith(name, FieldName(Attribute(name).value))
    ensures Attribute(name).Some? ==>
      forall g: Field :: Rank(g) < Rank(Attribute(name).value) ==> !StartsWith(name, FieldName(g))
    ensures Attribute(name).None? <==> forall g: Field :: !StartsWith(name, FieldName(g))
  {
  }

  /** A column name the loop emits an entry for. */
  predicate Recognised(name: string)
  {
    name == AmountName || Attribute(name).Some?
  }

  /** The entry the loop emits for one column name, or `None` when it skips the name. */
  function Entry(t: Transaction, name: string): (r: Option<real>)
    ensures name == AmountName ==> r == Some(t.amount)
    ensures r.Some? <==> Recognised(name)
    ensures name != AmountName && r.Some? ==>
      var f := Attribute(name).value;
      (r.value == 1.0 <==> name == OneHotName(f, ValueOf(t, f))) && (r.value == 0.0 || r.value == 1.0)
  {
    if name == AmountName then Some(t.amount)
    else match Attribute(name)
      case None => None
      case Some(f) => Some(if name == OneHotName(f, ValueOf(t, f)) then 1.0 else 0.0)
  }

  /** The names of `names` that the loop emits an entry for, in their original order. */
  function RecognisedNames(names: seq<string>): (r: seq<string>)
    ensures forall x :: x in r <==> x in names && Recognised(x)
  {
    if |names| == 0 then []
    else if Recognised(names[0]) then [names[0]] + RecognisedNames(names[1..])
    else RecognisedNames(names[1..])
  }

  /** How many entries of `names` the loop skips, repeats counted. */
  function UnrecognisedCount(names: seq<string>): nat
  {
    if |names| == 0 then 0
    else (if Recognised(names[0]) then 0 else 1) + UnrecognisedCount(names[1..])
  }

  /**
   * The pre-scaling feature vector: one entry per recognised name, in the
   * order of `names`, each the entry that name produces for `t`.
   */
  function Reconstruct(t: Transaction, names: seq<string>): (v: seq<real>)
    ensures |v| == |RecognisedNames(names)|
    ensures forall i :: 0 <= i < |v| ==> Entry(t, RecognisedNames(names)[i]) == Some(v[i])
  {
    if |names| == 0 then []
    else match Entry(t, names[0])
      case None => Reconstruct(t, names[1..])
      case Some(x) => [x] + Reconstruct(t, names[1..])
  }

  /**
   * The recognised names keep the relative order of the persisted list,
   * and only the skipped entries are missing, each repeat counted.
   */
  lemma {:induction false} RecognisedNamesKeepOrder(names: seq<string>)
    ensures IsSubsequence(RecognisedNames(names), names)
    ensures |RecognisedNames(names)| + UnrecognisedCount(names) == |names|
  {
    if |names| > 0 {
      RecognisedNamesKeepOrder(names[1..]);
      var rest := RecognisedNames(names[1..]);
      if Recognised(names[0]) {
        assert ([names[0]] + rest)[1..] == rest;
      } else if |rest| > 0 {
        // every kept name is recognised, so the skipped head cannot be the first kept name
        assert rest[0] in rest;
      }
    }
  }

  /** The loop skips no entry exactly when every persisted name is recognised. */
  lemma {:induction false} NoneSkippedIffAllRecognised(names: seq<string>)
    ensures UnrecognisedCount(names) == 0 <==> forall n :: n in names ==> Recognised(n)
  {
    if |names| > 0 {
      NoneSkippedIffAllRecognised(names[1..]);
      assert forall n :: n in names <==> n == names[0] || n in names[1..];
    }
  }

  /** The reconstructed vector has one entry per persisted name exactly when every name is recognised. */
  lemma {:induction false} FullLengthIffAllRecognised(t: Transaction, names: seq<string>)
    ensures |Reconstruct(t, names)| == |names| <==> forall n :: n in names ==> Recognised(n)
  {
    RecognisedNamesKeepOrder(names);
    NoneSkippedIffAllRecognised(names);
  }

  /** Names written in the serving side's `<field>_<value>` scheme, or `amount`, are all recognised. */
  lemma OneHotSchemaFullLength(t: Transaction, names: seq<string>)
    requires forall n :: n in names ==> n == AmountName || exists f: Field, v: string :: n == OneHotName(f, v)
    ensures |Reconstruct(t, names)| == |names|
  {
    forall n | n in names
      ensures Recognised(n)
    {
      if n != AmountName {
        var f: Field, v: string :| n == OneHotName(f, v);
        assert n[..|FieldName(f)|] == FieldName(f);
        assert StartsWith(n, FieldName(f));
      }
    }
    FullLengthIffAllRecognised(t, names);
  }

  /**
   * No field name is a prefix of an earlier-tried one's one-hot names, so a
   * name written `<field>_<value>` is attributed to that field, whatever the
   * value (even one containing `_` or another field's name).
   */
  lemma OneHotNameAttribution(f: Field, v: string)
    ensures Attribute(OneHotName(f, v)) == Some(f)
  {
    var n, p := OneHotName(f, v), FieldName(f);
    assert n[..|p|] == p;
    assert forall k :: 0 <= k < |p| ==> n[k] == p[k];
    match f
    case MerchantCategory =>
    case TimeOfDay =>
      assert n[0] == 't';
    case Location =>
      assert n[0] == 'l';
    case TransactionType =>
      assert n[0] == 't' && n[1] == 'r';
  }

  /** A one-hot name's entry is 1.0 exactly when its value is the transaction's value for its field. */
  lemma OneHotEntry(t: Transaction, f: Field, v: string)
    ensures Entry(t, OneHotName(f, v)) == Some(if v == ValueOf(t, f) then 1.0 else 0.0)
  {
    OneHotNameAttribution(f, v);
    var n, w := OneHotName(f, v), OneHotName(f, ValueOf(t, f));
    assert n != AmountName by {
      assert |n| > |AmountName|;
    }
    if n == w {
      assert n[|FieldName(f)| + 1..] == v;
      assert w[|FieldName(f)| + 1..] == ValueOf(t, f);
    }
  }

  /** When every name is recognised, none is dropped. */
  lemma {:induction false} AllRecognisedKept(names: seq<string>)
    requires forall n :: n in names ==> Recognised(n)
    ensures RecognisedNames(names) == names
  {
    if |names| > 0 {
      assert names[0] in names;
      assert forall n :: n in names[1..] ==> n in names;
      AllRecognisedKept(names[1..]);
      assert names == [names[0]] + names[1..];
    }
  }

  /** The names of a one-hot layout: slot `i` is `<fields[i]>_<values[i]>`. */
  function OneHotColumns(fields: seq<Field>, values: seq<string>): (names: seq<string>)
    requires |fields| == |values|
    ensures |names| == |fields|
    ensures forall i :: 0 <= i < |fields| ==> names[i] == OneHotName(fields[i], values[i])
  {
    seq(|fields|, i requires 0 <= i < |fields| => OneHotName(fields[i], values[i]))
  }

  /**
   * Reconstruction against a one-hot layout keeps every slot, and slot `i`
   * is 1.0 exactly when the transaction's value for `fields[i]` is `values[i]`.
   */
  lemma OneHotColumnsReconstruction(t: Transaction, fields: seq<Field>, values: seq<string>)
    requires |fields| == |values|
    ensures var v := Reconstruct(t, OneHotColumns(fields, values));
      && |v| == |fields|
      && forall i :: 0 <= i < |fields| ==> v[i] == (if values[i] == ValueOf(t, fields[i]) then 1.0 else 0.0)
  {
    var names := OneHotColumns(fields, values);
    forall n | n in names
      ensures Recognised(n)
    {
      var i :| 0 <= i < |names| && names[i] == n;
      OneHotNameAttribution(fields[i], values[i]);
    }
    AllRecognisedKept(names);
    forall i | 0 <= i < |fields|
      ensures Reconstruct(t, names)[i] == (if values[i] == ValueOf(t, fields[i]) then 1.0 else 0.0)
    {
      OneHotEntry(t, fields[i], values[i]);
    }
  }

  /** Every `amount` column carries the transaction's raw amount. */
  lemma AmountEntries(t: Transaction, names: seq<string>)
    ensures var v, rn := Reconstruct(t, names), RecognisedNames(names);
      forall i :: 0 <= i < |v| && rn[i] == AmountName ==> v[i] == t.amount
  {
  }

  /**
   * Unseen category: when no persisted name equals `<field>_<value>` for the
   * transaction's value, every entry attributed to that field is 0.0 (and
   * the reconstruction is still defined: no error).
   */
  lemma UnseenCategoryAllZero(t: Transaction, names: seq<string>, f: Field)
    requires OneHotName(f, ValueOf(t, f)) !in names
    ensures var v, rn := Reconstruct(t, names), RecognisedNames(names);
      forall i :: 0 <= i < |v| && rn[i] != AmountName && Attribute(rn[i]) == Some(f) ==> v[i] == 0.0
  {
    var v, rn := Reconstruct(t, names), RecognisedNames(names);
    forall i | 0 <= i < |v| && rn[i] != AmountName && Attribute(rn[i]) == Some(f)
      ensures v[i] == 0.0
    {
      assert rn[i] in rn;
      assert Entry(t, rn[i]) == Some(v[i]);
    }
  }

  /** With no duplicate names, at most one entry attributed to a field is 1.0. */
  lemma AtMostOneHotPerField(t: Transaction, names: seq<string>, f: Field)
    requires Distinct(names)
    ensures var v, rn := Reconstruct(t, names), RecognisedNames(names);
      forall i, j ::
        (0 <= i < j < |v| && rn[i] != AmountName && rn[j] != AmountName
         && Attribute(rn[i]) == Some(f) && Attribute(rn[j]) == Some(f))
        ==> !(v[i] == 1.0 && v[j] == 1.0)
  {
    var v, rn := Reconstruct(t, names), RecognisedNames(names);
    RecognisedNamesKeepOrder(names);
    SubsequenceDistinct(rn, names);
    forall i, j | 0 <= i < j < |v| && rn[i] != AmountName && rn[j] != AmountName
        && Attribute(rn[i]) == Some(f) && Attribute(rn[j]) == Some(f)
      ensures !(v[i] == 1.0 && v[j] == 1.0)
    {
      assert Entry(t, rn[i]) == Some(v[i]);
      assert Entry(t, rn[j]) == Some(v[j]);
    }
  }
}

=== FILE: scoring.dfy ===
/**
 * The scoring rules inside `predict` in src/api/app.py: the fraud decision
 * and the confidence bucket, both functions of the fraud probability alone.
 */
module Scoring {

  /** What the classifier reports for the fraud class. */
  type Probability = p: real | 0.0 <= p <= 1.0

  datatype Confidence = Low | Medium | High

  /** The label the response carries. */
  function Label(c: Confidence): string
  {
    match c
    case Low => "low"
    case Medium => "medium"
    case High => "high"
  }

  /** Distance of a probability from the decision boundary 0.5. */
  function Distance(p: real): (d: real)
    ensures d >= 0.0
    ensures d == p - 0.5 || d == 0.5 - p
  {
    if p >= 0.5 then p - 0.5 else 0.5 - p
  }

  /** The decision: strictly above one half is fraud. */
  predicate IsFraud(p: real)
  {
    p > 0.5
  }

  /**
   * The three-way bucket. Checked in the source's order (high first, then
   * medium), and equivalently a banding of the distance from 0.5.
   */
  function Bucket(p: real): (c: Confidence)
    ensures c == High <==> Distance(p) > 0.2
    ensures c == Medium <==> 0.1 < Distance(p) <= 0.2
    ensures c == Low <==> Distance(p) <= 0.1
  {
    if p < 0.3 || p > 0.7 then High
    else if p < 0.4 || p > 0.6 then Medium
    else Low
  }

  /** The bucket of `p` is the bucket of `1 - p`. */
  lemma BucketSymmetric(p: real)
    ensures Bucket(p) == Bucket(1.0 - p)
  {
    assert Distance(p) == Distance(1.0 - p);
  }

  /** The closer a probability is to 0.5, the lower (never higher) its bucket. */
  lemma BucketMonotoneInDistance(p: real, q: real)
    requires Distance(p) <= Distance(q)
    ensures Bucket(p) == High ==> Bucket(q) == High
    ensures Bucket(p) == Medium ==> Bucket(q) != Low
  {
  }

  /**
   * The decision is strict at the boundary and flips under `p -> 1 - p`
   * everywhere else; a low-confidence answer is never far from 0.5.
   */
  lemma DecisionBoundary(p: real)
    ensures !IsFraud(0.5)
    ensures p != 0.5 ==> IsFraud(p) != IsFraud(1.0 - p)
    ensures Bucket(p) == Low ==> 0.4 <= p <= 0.6
  {
  }

  /** The five reference probabilities and their buckets. */
  lemma ReferenceBuckets()
    ensures Bucket(0.1) == High && Bucket(0.35) == Medium && Bucket(0.5) == Low
    ensures Bucket(0.65) == Medium && Bucket(0.9) == High
    ensures Label(Bucket(0.1)) == "high" && Label(Bucket(0.5)) == "low"
  {
  }
}

=== FILE: serving.dfy ===
/**
 * The endpoints of src/api/app.py that score transactions: `predict`,
 * `batch_predict` and `model_info`, over an explicitly passed artifact
 * bundle instead of module-level globals.
 */
module Serving {
  import opened Outcomes
  import opened Reconstruction
  import opened Scoring
  import opened Preprocessing

  /**
   * The fitted scaler: the feature width it was fitted on and its
   * (opaque) transform. Like sklearn's, it refuses input of another width.
   */
  datatype Scaler = Scaler(nFeaturesIn: nat, transform: seq<real> -> seq<real>)

  /** The fitted classifier: its input width, its type name and its fraud-class probability. */
  datatype Classifier = Classifier(kind: string, nFeaturesIn: nat, fraudProbability: seq<real> -> Probability)

  /** Everything `load_model_artifacts` reads from disk. */
  datatype Artifacts = Artifacts(
    model: Classifier,
    scaler: Scaler,
    encoders: seq<EncoderEntry>,
    featureNames: seq<string>)

  /** The HTTP failures: 503 when nothing is loaded, 500 for a failed (batch) prediction. */
  datatype ApiError = ModelNotLoaded | PredictionFailed | BatchPredictionFailed

  function StatusCode(e: ApiError): nat
  {
    match e
    case ModelNotLoaded => 503
    case PredictionFailed => 500
    case BatchPredictionFailed => 500
  }

  datatype Prediction = Prediction(isFraud: bool, probability: Probability, confidence: Confidence)

  /**
   * The scaled vector the classifier sees, or `None` where the scaler or
   * classifier rejects its width. Like sklearn's input validation, the
   * scaler also refuses a row with no features at all.
   */
  function ScaledInput(a: Artifacts, t: Transaction): (x: Option<seq<real>>)
    ensures x.Some? <==>
      (&& 0 < |Reconstruct(t, a.featureNames)| == a.scaler.nFeaturesIn
       && |a.scaler.transform(Reconstruct(t, a.featureNames))| == a.model.nFeaturesIn)
  {
    var raw := Reconstruct(t, a.featureNames);
    if |raw| == 0 || |raw| != a.scaler.nFeaturesIn then None
    else
      var scaled := a.scaler.transform(raw);
      if |scaled| != a.model.nFeaturesIn then None else Some(scaled)
  }

  /** `predict`: 503 without a model; 500 when any step of scoring raises; otherwise the response. */
  function Predict(loaded: Option<Artifacts>, t: Transaction): (r: Result<Prediction, ApiError>)
    ensures loaded.None? ==> r == Err(ModelNotLoaded)
    ensures loaded.Some? ==> (r.Ok? <==> ScaledInput(loaded.value, t).Some?)
    ensures loaded.Some? && r.Err? ==> r.error == PredictionFailed
    ensures r.Err? ==> StatusCode(r.error) == (if loaded.None? then 503 else 500)
    ensures r.Ok? ==>
      && r.value.probability == loaded.value.model.fraudProbability(ScaledInput(loaded.value, t).value)
      && (r.value.isFraud <==> r.value.probability > 0.5)
      && r.value.confidence == Bucket(r.value.probability)
  {
    match loaded
    case None => Err(ModelNotLoaded)
    case Some(a) =>
      match ScaledInput(a, t)
      case None => Err(PredictionFailed)
      case Some(x) =>
        var p := a.model.fraudProbability(x);
        Ok(Prediction(IsFraud(p), p, Bucket(p)))
  }

  datatype BatchResponse = BatchResponse(
    predictions: seq<Prediction>,
    totalTransactions: nat,
    fraudCount: nat,
    fraudPercentage: real)

  /** The number of fraud decisions among the predictions. */
  function FraudCount(ps: seq<Prediction>): (n: nat)
    ensures n <= |ps|
  {
    if |ps| == 0 then 0
    else FraudCount(ps[..|ps| - 1]) + (if ps[|ps| - 1].isFraud then 1 else 0)
  }

  /** The indices of the predictions that flag fraud. */
  function FraudIndices(ps: seq<Prediction>): set<nat>
  {
    set i: nat | i < |ps| && ps[i].isFraud
  }

  /** The running count is the number of flagged predictions. */
  lemma {:induction false} FraudCountCountsFlagged(ps: seq<Prediction>)
    ensures FraudCount(ps) == |FraudIndices(ps)|
  {
    if |ps| > 0 {
      var n := |ps| - 1;
      var front := ps[..n];
      FraudCountCountsFlagged(front);
      assert forall i: nat :: i < n ==> front[i] == ps[i];
      if ps[n].isFraud {
        assert FraudIndices(ps) == FraudIndices(front) + {n};
      } else {
        assert FraudIndices(ps) == FraudIndices(front);
      }
    }
  }

  /** The unrounded fraud percentage, 0 for an empty batch. */
  function FraudPercentage(fraudCount: nat, total: nat): (pct: real)
    requires fraudCount <= total
    ensures 0.0 <= pct <= 100.0
    ensures total > 0 ==> pct * (total as real) == (fraudCount as real) * 100.0
    ensures total == 0 ==> pct == 0.0
  {
    if total > 0 then fraudCount as real / total as real * 100.0 else 0.0
  }

  /**
   * `batch_predict`: every transaction goes through `Predict` in order;
   * one failure fails the whole call with no partial result.
   */
  method BatchPredict(loaded: Option<Artifacts>, txs: seq<Transaction>) returns (r: Result<BatchResponse, ApiError>)
    ensures loaded.None? ==> r == Err(ModelNotLoaded)
    ensures loaded.Some? ==> (r.Ok? <==> forall i :: 0 <= i < |txs| ==> Predict(loaded, txs[i]).Ok?)
    ensures loaded.Some? && r.Err? ==> r.error == BatchPredictionFailed
    ensures r.Err? ==> StatusCode(r.error) == (if loaded.None? then 503 else 500)
    ensures r.Ok? ==>
      && r.value.totalTransactions == |txs| == |r.value.predictions|
      && (forall i :: 0 <= i < |txs| ==> Predict(loaded, txs[i]) == Ok(r.value.predictions[i]))
      && r.value.fraudCount == FraudCount(r.value.predictions) <= r.value.totalTransactions
      && r.value.fraudPercentage == FraudPercentage(r.value.fraudCount, r.value.totalTransactions)
  {
    if loaded.None? {
      return Err(ModelNotLoaded);
    }
    var predictions: seq<Prediction> := [];
    var fraudCount := 0;
    for i := 0 to |txs|
      invariant |predictions| == i
      invariant forall k :: 0 <= k < i ==> Predict(loaded, txs[k]) == Ok(predictions[k])
      invariant fraudCount == FraudCount(predictions)
    {
      var result := Predict(loaded, txs[i]);
      if result.Err? {
        assert !Predict(loaded, txs[i]).Ok?;
        return Err(BatchPredictionFailed);
      }
      var prev := predictions;
      predictions := prev + [result.value];
      assert predictions[..i] == prev;
      if result.value.isFraud {
        fraudCount := fraudCount + 1;
      }
    }
    var total := |txs|;
    return Ok(BatchResponse(predictions, total, fraudCount, FraudPercentage(fraudCount, total)));
  }

  datatype ModelInfo = ModelInfo(
    modelType: string,
    nFeatures: nat,
    featureNames: seq<string>,
    categoricalFeatures: seq<string>)

  /** `model_info`: 503 without a model, otherwise the bundle's summary. */
  function GetModelInfo(loaded: Option<Artifacts>): (r: Result<ModelInfo, ApiError>)
    ensures r.Ok? <==> loaded.Some?
    ensures loaded.None? ==> r == Err(ModelNotLoaded)
    ensures r.Err? ==> StatusCode(r.error) == 503
    ensures r.Ok? ==>
      && r.value.nFeatures == |r.value.featureNames|
      && r.value.featureNames == loaded.value.featureNames
      && r.value.modelType == loaded.value.model.kind
      && |r.value.categoricalFeatures| == |loaded.value.encoders|
      && forall k :: 0 <= k < |loaded.value.encoders| ==> r.value.categoricalFeatures[k] == loaded.value.encoders[k].column
  {
    match loaded
    case None => Err(ModelNotLoaded)
    case Some(a) => Ok(ModelInfo(a.model.kind, |a.featureNames|, a.featureNames, Keys(a.encoders)))
  }
}

=== FILE: strings.dfy ===
/** Sequence and string facts shared by the serving and offline models. */
module Strings {

  /** Python's `s.startswith(p)`: `p` is a prefix of `s`. */
  predicate StartsWith(s: string, p: string)
  {
    |p| <= |s| && s[..|p|] == p
  }

  /** No element occurs twice. */
  predicate Distinct<T(==)>(s: seq<T>)
  {
    forall i, j :: 0 <= i < j < |s| ==> s[i] != s[j]
  }

  /** `sub` is obtained from `s` by deleting elements, keeping the rest in order. */
  predicate IsSubsequence<T(==)>(sub: seq<T>, s: seq<T>)
    decreases |s|
  {
    if |sub| == 0 then true
    else if |s| == 0 then false
    else if sub[0] == s[0] then IsSubsequence(sub[1..], s[1..])
    else IsSubsequence(sub, s[1..])
  }

  /** A subsequence of a sequence without duplicates has no duplicates either. */
  lemma {:induction false} SubsequenceDistinct<T>(sub: seq<T>, s: seq<T>)
    requires IsSubsequence(sub, s)
    requires Distinct(s)
    ensures Distinct(sub)
    ensures forall x :: x in sub ==> x in s
    decreases |s|
  {
    if |sub| == 0 {
    } else if sub[0] == s[0] {
      SubsequenceDistinct(sub[1..], s[1..]);
      forall j | 0 < j < |sub|
        ensures sub[0] != sub[j]
      {
        assert sub[j] == sub[1..][j - 1];
        assert sub[j] in s[1..];
      }
      forall x | x in sub
        ensures x in s
      {
        if x != sub[0] {
          assert x in sub[1..];
        }
      }
    } else {
      SubsequenceDistinct(sub, s[1..]);
    }
  }

  /**
   * Code-point lexicographic order on strings: the order numpy uses when it
   * sorts the classes of a label encoder.
   */
  predicate LexLess(a: string, b: string)
    decreases |a|
  {
    if |a| == 0 then |b| > 0
    else if |b| == 0 then false
    else a[0] < b[0] || (a[0] == b[0] && LexLess(a[1..], b[1..]))
  }

  lemma {:induction false} LexLessIrreflexive(a: string)
    ensures !LexLess(a, a)
    decreases |a|
  {
    if |a| > 0 {
      LexLessIrreflexive(a[1..]);
    }
  }

  lemma {:induction false} LexLessTransitive(a: string, b: string, c: string)
    requires LexLess(a, b) && LexLess(b, c)
    ensures LexLess(a, c)
    decreases |a|
  {
    if |a| > 0 && |b| > 0 && |c| > 0 && a[0] == b[0] == c[0] {
      LexLessTransitive(a[1..], b[1..], c[1..]);
    }
  }

  lemma {:induction false} LexLessTotal(a: string, b: string)
    requires a != b
    ensures LexLess(a, b) || LexLess(b, a)
    decreases |a|
  {
    if |a| > 0 && |b| > 0 && a[0] == b[0] {
      assert a == [a[0]] + a[1..];
      assert b == [b[0]] + b[1..];
      LexLessTotal(a[1..], b[1..]);
    }
  }
}
